=== FILE: README.md ===
# EmailMoverReader front end, modelled in Dafny

EmailMoverReader is a one-shot command-line tool. It reads `--name value`
arguments, connects to an IMAP mailbox, fetches the first message of a
folder, may move that message to another folder, and prints one JSON object
`{ Success, Message, Email }`. The tool's own logic is the argument
handling and the decisions around the mail-library calls. It sits in
`Main`, in `MoveEmailToFolder` and in the `EmailData` constructor. This project models that logic. The library calls are
replaced by their results.

- `wrappers.dfy`, module `Wrappers`: `Option`, `Result` and `Outcome`. They
  stand for the source's nulls and caught exceptions.
- `text.dfy`, module `Text`: an ordinal `StartsWith`, `string.Join`, and
  substring occurrence. It also has `Split`, the inverse of `Join`, with the
  round-trip proved.
- `arguments.dfy`, module `Arguments`: the argument loop. `ParseFrom`/`Parse`
  is the loop as a recursive function. `ParseArgs` is the loop as written,
  with the `i++` inside the body. The reference description is separate:
  `WellPaired`, `GoodPairs` (the longest run of well-formed flag/value pairs
  at the front) and `Pairs`. Lemmas connect the loop to that description.
- `required.dfy`, module `Required`: the required-name check and its
  message.
- `mail.dfy`, module `Mail`: `EmailData` and its constructor,
  `MoveEmailToFolder` over the results of its library calls, and `Respond`.
  `Respond` decides how a move result replaces the fetch envelope.
- `emailmover.dfy`, module `EmailMover`: `Run`, one whole execution of
  `Main` against an `Env` of network results. It yields a `Report`: whether
  a move was attempted, and the printed response. The response is absent
  when an exception escapes `Main`.

The program does not always print a JSON object. Two steps run outside any
`try`:
- `int.Parse` of the port (line 51);
- the second connection's `Connect`, `Authenticate` and `Disconnect`
  (lines 70-74).

When either step throws, no JSON object is printed on standard output. The
runtime reports the exception on standard error instead. `Run` reports this
as `output == None`.

## Model

| member | source | states |
|---|---|---|
| Arguments.IsFlag | EmailMoverReader/Program.cs:18 | No contract of its own: the token starts with `--`, compared character by character. `ParseOutcome`, `ParseOkIffWellFormed` and the `ParseFrom` contract state what the loop does with flags and non-flags. |
| Arguments.Key | EmailMoverReader/Program.cs:20 | The parameter name is the flag without its first two characters: putting `--` back in front gives the flag again. |
| Arguments.ErrorMessage | EmailMoverReader/Program.cs:28-34 | An invalid token is reported as `Invalid argument format: ` followed by the token verbatim. A flag without value is reported as `Missing value for parameter: ` followed by the flag, `--` included. |
| Arguments.ErrorMessageInjective | EmailMoverReader/Program.cs:28-34 | Two failures with the same printed message are the same failure, of the same kind and with the same token. |
| Arguments.ParseFrom | EmailMoverReader/Program.cs:16-37 | The loop from index `i` in recursive form. A success has consumed an even number of tokens and keeps every name read before. An invalid token is never a flag, and a flag without value always is one. Both are tokens at or after `i`. `ParseFromOutcome` and `ParseFromIsInsert` relate it to the reference description. |
| Arguments.Parse | EmailMoverReader/Program.cs:14-37 | The whole loop from index 0 with an empty map. A success means an even number of tokens. A reported invalid token is a token of the list that is not a flag. A reported flag without value is a token of the list that is a flag. `ParseOutcome`, `ParseOkIffWellFormed` and `ParseContents` tie it to the independent description `WellFormed`/`GoodPairs`/`Pairs`. |
| Arguments.ParseArgs | EmailMoverReader/Program.cs:14-37 | The `for` loop over the arguments, with its inner `i++`, computes exactly the recursive reading `Parse`. |
| Arguments.ParseOutcome | EmailMoverReader/Program.cs:16-36 | Reading stops at token `k = 2 * GoodPairs(args)`, where the first malformed pair starts. It succeeds iff `k` is the end of the list. It reports `InvalidFormat(args[k])` when that token is not a flag. It reports `MissingValue(args[k])`, with the `--` kept, when that token is a flag that is last or is followed by another flag. |
| Arguments.ParseOkIffWellFormed | EmailMoverReader/Program.cs:16-24 | Reading succeeds iff the list has an even length, a flag at every even position, and a non-flag after each flag. Values therefore never start with `--`, and every other value, the empty string included, is accepted. |
| Arguments.InvalidFormatIgnoresRest | EmailMoverReader/Program.cs:18-36 | A non-flag in flag position after well-formed pairs gives `InvalidFormat` with that token. Replacing everything after it does not change the result, so no later token is examined. |
| Arguments.MissingValueIgnoresRest | EmailMoverReader/Program.cs:21-30 | A flag followed by another flag gives `MissingValue` with the first flag. The tokens after the pair do not matter. |
| Arguments.MissingValueAtEnd | EmailMoverReader/Program.cs:21-30 | A flag as the last token, after well-formed pairs, gives `MissingValue` with that flag. |
| Arguments.ParseContents | EmailMoverReader/Program.cs:20-24 | On success, the map's keys are exactly the flag names with their first two characters removed. Each name maps to the token after its last occurrence, so a repeated flag keeps its last value. |
| Required.Missing | EmailMoverReader/Program.cs:39-40 | The missing list holds exactly the required names absent from the map. It keeps their fixed order `server, username, password, port, readfolder`. |
| Required.MissingExactly | EmailMoverReader/Program.cs:39-40 | Any order-preserving selection from the required list with the same members equals the missing list, so its order is forced. |
| Required.MissingMessage | EmailMoverReader/Program.cs:44 | The message starts with `Missing parameters: ` and contains every missing name. `MissingMessageLists` shows that the list part splits back into exactly the missing names. |
| Required.MissingEmptyIff | EmailMoverReader/Program.cs:42-46 | The check fails iff some required name is absent from the map. |
| Required.NothingSupplied | EmailMoverReader/Program.cs:39-44 | An empty map misses all five names. The message is `Missing parameters: server, username, password, port, readfolder`. |
| Required.MissingMessageLists | EmailMoverReader/Program.cs:44 | The message is `Missing parameters: ` followed by a list. Cutting that list at every `, ` gives back exactly the missing names, in order, and no other list text cuts into them. The cut is stated when at least one name is missing. |
| Text.Join | EmailMoverReader/Program.cs:44 | No contract of its own: `string.Join`, which puts the separator between consecutive items. An empty list renders as `""` and a single item as itself, as in .NET. It also renders the folder list at line 138. `Text.SplitJoin` and `Text.JoinSplit` characterise it, and `Text.JoinContainsItems` shows that every item occurs in the result. |
| Text.JoinSplit | EmailMoverReader/Program.cs:44 | Joining the pieces of a cut text with the same separator gives that text back, so a text is fixed by its pieces: the missing-parameters message is the only text whose list part cuts into the missing names. |
| Text.SplitJoin | EmailMoverReader/Program.cs:44 | Cutting a `string.Join` result at the separator recovers the items, for a non-empty list and a non-empty separator, provided no item contains the separator's first character. |
| Mail.NewEmailData | EmailMoverReader/Program.cs:188-197 | The constructor copies every field, including a possibly absent subject or body. A null attachment list becomes the empty list, so `Attachments` is never absent. |
| Mail.MoveEmailToFolder | EmailMoverReader/Program.cs:127-156 | The move succeeds iff three things hold: listing the folders succeeded, the target is among them verbatim, and the transfer did not throw. A success carries `Email moved to <target> successfully.`. A missing folder carries `Mail.FolderMissingMessage`: `The folder '<target>' does not exist. Available folders: ` followed by the listed names joined with `, `. An exception carries `Error moving email: ` plus its message. |
| Mail.FolderMissingNamesAll | EmailMoverReader/Program.cs:136-139 | When the target is not listed, the move fails. Its message contains the requested name and every available folder name. |
| Mail.MoveNeedsExactName | EmailMoverReader/Program.cs:136 | A target that differs from every listed name in any character, letter case included, is refused. |
| Mail.MoveRequested | EmailMoverReader/Program.cs:66 | No contract of its own: the target is non-empty and the UID is not `UniqueId.Invalid`. `Mail.Respond`, `EmailMover.Run`, `EmailMover.RunFetchOnly` and `EmailMover.RunMove` state what it decides. |
| Mail.Respond | EmailMoverReader/Program.cs:58-79 | A failed fetch gives failure with `Failed to retrieve email.` and the empty email. A fetch with no move requested gives success with `Email fetched successfully.`. An attempted move passes on the move's success and message. The email is present iff the fetch succeeded, and then it is the fetched one, even when the move failed. |
| Mail.RespondIgnoresUnrequestedMove | EmailMoverReader/Program.cs:66 | When no move is requested, the move result has no influence on the response. |
| EmailMover.MoveTarget | EmailMoverReader/Program.cs:53 | `movetofolder` defaults to the empty string. The target is non-empty exactly when that parameter is given a non-empty value. |
| EmailMover.Run | EmailMoverReader/Program.cs:12-82 | A move is attempted iff four things hold: the arguments are accepted, the port parses, a message was fetched, and the target is non-empty with a valid UID. A printed success implies accepted arguments and a fetched email that is included. Nothing is printed only after a port parse failure, or after a failure to reconnect for the move. Argument errors always print a response with the empty email. |
| EmailMover.RunBadArguments | EmailMoverReader/Program.cs:26-36 | A malformed argument list prints `Invalid argument format: <token>` or `Missing value for parameter: <flag>` with the empty email. It attempts no move and ignores the network. |
| EmailMover.RunMissingParameters | EmailMoverReader/Program.cs:42-46 | Missing required names print the missing-parameters message and the empty email, whatever the network would do. |
| EmailMover.RunNoArguments | EmailMoverReader/Program.cs:39-46 | An empty argument list reports all five required names. |
| EmailMover.RunFetchFailed | EmailMoverReader/Program.cs:58-62 | A fetch that returned null prints `Failed to retrieve email.` with the empty email, and no move is attempted. |
| EmailMover.RunFetchOnly | EmailMoverReader/Program.cs:64-66 | A fetched message with no move requested prints success with `Email fetched successfully.` and the email. |
| EmailMover.RunMove | EmailMoverReader/Program.cs:66-78 | After an attempted move, the printed success and message are exactly the move's, and the email is the fetched one. |
| EmailMover.RunSuccessNeeds | EmailMoverReader/Program.cs:16-46 | A printed success implies three things. The arguments were well-formed pairs. Every required name was among the flags. After a move, the target was one of the listed folders. |

## Left out

- IMAP connect, authenticate, folder open, fetch and move (lines 68-74, 85-125, 141-148). These are mail-library network calls. They appear only as the fields of `Env` and as the `Outcome` of the transfer. The code moves the message out of the Inbox by the UID it read from `readfolder` (lines 146-148), even when `readfolder` names another folder. Which message the library then moves is not modelled.
- Attachment enumeration, content decoding and base64 encoding (lines 160-175). These are library calls. `Attachment` carries their results as plain strings. The file name is optional, because `FileName` is null for a part without one.
- JSON serialisation, indentation and console output. Only the `(Success, Message, Email)` triple is modelled. `None` stands for the empty object `{}`.
- `int.Parse` of `port` (line 51). The model has no integer grammar for it. `Env.portIsInteger` stands for its verdict. A failure is an uncaught exception (`output == None`), not a reported error.
- The `DateTime` UTC conversion (line 114). The model keeps the date as an opaque integer.
- The server's ordering of messages (line 99). The fetched message is an input.
- Exception messages printed by `ConnectToImapServer` (line 122). They go to the console, not to the JSON object.
- Arguments.IsFlag: the model compares the prefix `--` character by character. The source calls `StartsWith("--")` without a comparison type, which compares under the current culture. Such a comparison may ignore certain characters before the dashes, such as a soft hyphen. It may also refuse a match when a combining mark follows the second dash, as in `--` followed by U+0308. Both comparisons agree on tokens made only of printable ASCII characters (U+0020–U+007E). ASCII control characters such as U+0001 carry no collation weight and may be ignored like the soft hyphen.
- Mail.UniqueId: a UID is modelled by its numeric id alone, with `UniqueId.Invalid` as id 0. The library's type also carries a UID validity, which the validity test at line 66 is not modelled to consult.

=== FILE: arguments.dfy ===
/** The command-line front end of `Main`: `--name value` pairs are read left
    to right into a parameter map, stopping at the first malformed token. */
module Arguments {
  import Text

  /** Outcome of reading the argument list. The two failures carry the token
      that the source quotes in its error message. */
  datatype ParseResult =
    | Ok(parameters: map<string, string>)
    | InvalidFormat(token: string)
    | MissingValue(flag: string)

  /** A token in flag form, `--name`. */
  predicate IsFlag(token: string) {
    Text.StartsWith(token, "--")
  }

  /** The parameter name of a flag: the flag without its leading `--`. */
  function Key(flag: string): (k: string)
    requires IsFlag(flag)
    ensures "--" + k == flag
  {
    flag[2..]
  }

  const InvalidFormatPrefix: string := "Invalid argument format: "
  const MissingValuePrefix: string := "Missing value for parameter: "

  /** The failure message the source prints for a failed parse: a fixed text
      naming the kind of failure, then the offending token verbatim. */
  function ErrorMessage(r: ParseResult): (msg: string)
    requires !r.Ok?
    ensures r.InvalidFormat? ==>
      Text.StartsWith(msg, InvalidFormatPrefix) && msg[|InvalidFormatPrefix|..] == r.token
    ensures r.MissingValue? ==>
      Text.StartsWith(msg, MissingValuePrefix) && msg[|MissingValuePrefix|..] == r.flag
  {
    match r
    case InvalidFormat(t) => InvalidFormatPrefix + t
    case MissingValue(f) => MissingValuePrefix + f
  }

  /** The printed message determines the failure: its kind and its token. */
  lemma ErrorMessageInjective(a: ParseResult, b: ParseResult)
    requires !a.Ok? && !b.Ok?
    requires ErrorMessage(a) == ErrorMessage(b)
    ensures a == b
  {
    var m := ErrorMessage(a);
    assert m[0] == ErrorMessage(b)[0];
  }

  /** The loop of `Main` from index `i` on, with the parameters read so far in `acc`:
      a flag followed by a non-flag is stored and both tokens are consumed. A
      success has consumed an even number of tokens and kept every name read
      before; a reported invalid token is never a flag, a flag without value
      always is one, and both are tokens of the list at or after `i`. */
  function ParseFrom(args: seq<string>, i: nat, acc: map<string, string>): (r: ParseResult)
    requires i <= |args|
    ensures r.Ok? ==> (|args| - i) % 2 == 0 && acc.Keys <= r.parameters.Keys
    ensures r.InvalidFormat? ==> !IsFlag(r.token) && r.token in args[i..]
    ensures r.MissingValue? ==> IsFlag(r.flag) && r.flag in args[i..]
    decreases |args| - i
  {
    if i == |args| then Ok(acc)
    else if !IsFlag(args[i]) then InvalidFormat(args[i])
    else if i + 1 < |args| && !IsFlag(args[i + 1]) then
      ParseFrom(args, i + 2, acc[Key(args[i]) := args[i + 1]])
    else MissingValue(args[i])
  }

  /** Reads the whole argument list into a parameter map. */
  function Parse(args: seq<string>): (r: ParseResult)
    ensures r.Ok? ==> |args| % 2 == 0
    ensures r.InvalidFormat? ==> !IsFlag(r.token) && r.token in args
    ensures r.MissingValue? ==> IsFlag(r.flag) && r.flag in args
  {
    assert args[0..] == args;
    ParseFrom(args, 0, map[])
  }

  /** The loop of `Main` as written: a `for` over the indices whose body
      skips the value token it has just stored. */
  method ParseArgs(args: seq<string>) returns (r: ParseResult)
    ensures r == Parse(args)
  {
    var parameters: map<string, string> := map[];
    var i := 0;
    while i < |args|
      invariant i <= |args|
      invariant ParseFrom(args, i, parameters) == Parse(args)
    {
      if IsFlag(args[i]) {
        var name := Key(args[i]);
        if i + 1 < |args| && !IsFlag(args[i + 1]) {
          parameters := parameters[name := args[i + 1]];
          i := i + 1;
        } else {
          return MissingValue(args[i]);
        }
      } else {
        return InvalidFormat(args[i]);
      }
      i := i + 1;
    }
    return Ok(parameters);
  }

  // ---------------------------------------------------------------------------
  // Reference description of the argument layout, independent of the loop.

  /** Pair number `p` (tokens `2p` and `2p+1`) is a flag followed by a value. */
  predicate PairOk(args: seq<string>, p: nat)
    requires 2 * p + 1 < |args|
  {
    IsFlag(args[2 * p]) && !IsFlag(args[2 * p + 1])
  }

  /** The first `n` pairs of `args` are well formed. */
  predicate WellPaired(args: seq<string>, n: nat) {
    2 * n <= |args| && forall p: nat :: p < n ==> PairOk(args, p)
  }

  /** The whole argument list is a sequence of well-formed pairs. */
  predicate WellFormed(args: seq<string>) {
    |args| % 2 == 0 && WellPaired(args, |args| / 2)
  }

  /** Number of well-formed pairs at the front of `args`, counting on from pair `p`. */
  function GoodPairsFrom(args: seq<string>, p: nat): (n: nat)
    requires WellPaired(args, p)
    ensures p <= n && WellPaired(args, n)
    ensures 2 * n + 1 < |args| ==> !PairOk(args, n)
    decreases |args| - 2 * p
  {
    if 2 * p + 1 < |args| && PairOk(args, p) then GoodPairsFrom(args, p + 1) else p
  }

  /** The length of the longest well-formed run of pairs at the front of `args`;
      token `2 * GoodPairs(args)`, when it exists, is where reading stops. */
  function GoodPairs(args: seq<string>): (n: nat)
    ensures WellPaired(args, n)
    ensures 2 * n + 1 < |args| ==> !PairOk(args, n)
  {
    GoodPairsFrom(args, 0)
  }

  /** The well-formed prefix is determined by its two defining properties. */
  lemma GoodPairsUnique(args: seq<string>, n: nat)
    requires WellPaired(args, n)
    requires 2 * n + 1 < |args| ==> !PairOk(args, n)
    ensures GoodPairs(args) == n
  {
  }

  /** The (name, value) pairs of a well-formed argument list, in order. */
  function Pairs(args: seq<string>): (ps: seq<(string, string)>)
    requires WellFormed(args)
    ensures |ps| == |args| / 2
    ensures forall q :: 0 <= q < |ps| ==>
      PairOk(args, q) && ps[q] == (Key(args[2 * q]), args[2 * q + 1])
  {
    assert forall q :: 0 <= q < |args| / 2 ==> PairOk(args, q);
    seq(|args| / 2, q requires 0 <= q < |args| / 2 && PairOk(args, q) => (Key(args[2 * q]), args[2 * q + 1]))
  }

  // ---------------------------------------------------------------------------
  // The loop against the reference.

  lemma {:induction false} ParseFromOutcome(args: seq<string>, p: nat, acc: map<string, string>)
    requires WellPaired(args, p)
    ensures var k := 2 * GoodPairsFrom(args, p);
      match ParseFrom(args, 2 * p, acc)
      case Ok(_) => k == |args|
      case InvalidFormat(t) => k < |args| && !IsFlag(args[k]) && t == args[k]
      case MissingValue(f) =>
        k < |args| && IsFlag(args[k]) && (k + 1 == |args| || IsFlag(args[k + 1])) && f == args[k]
    decreases |args| - 2 * p
  {
    var i := 2 * p;
    if i == |args| {
    } else if !IsFlag(args[i]) {
    } else if i + 1 < |args| && !IsFlag(args[i + 1]) {
      assert PairOk(args, p);
      assert WellPaired(args, p + 1);
      ParseFromOutcome(args, p + 1, acc[Key(args[i]) := args[i + 1]]);
    } else {
    }
  }

  /** Reading stops exactly at token `2 * GoodPairs(args)`: it succeeds when the
      whole list is well-formed pairs, reports that token as an invalid argument
      when it is not a flag, and as a flag without value when it is one. */
  lemma ParseOutcome(args: seq<string>)
    ensures var k := 2 * GoodPairs(args);
      match Parse(args)
      case Ok(_) => k == |args|
      case InvalidFormat(t) => k < |args| && !IsFlag(args[k]) && t == args[k]
      case MissingValue(f) =>
        k < |args| && IsFlag(args[k]) && (k + 1 == |args| || IsFlag(args[k + 1])) && f == args[k]
  {
    ParseFromOutcome(args, 0, map[]);
  }

  /** Reading succeeds exactly on lists of well-formed pairs: an even number of
      tokens with a flag at every even position and a non-flag after each. */
  lemma ParseOkIffWellFormed(args: seq<string>)
    ensures Parse(args).Ok? <==> WellFormed(args)
  {
    ParseOutcome(args);
    var n := GoodPairs(args);
    if WellFormed(args) {
      GoodPairsUnique(args, |args| / 2);
    }
  }

  /** A token in flag position that is not a flag ends reading with that token,
      whatever follows it. */
  lemma InvalidFormatIgnoresRest(args: seq<string>, p: nat, rest: seq<string>)
    requires WellPaired(args, p) && 2 * p < |args| && !IsFlag(args[2 * p])
    ensures Parse(args) == InvalidFormat(args[2 * p])
    ensures Parse(args[..2 * p + 1] + rest) == InvalidFormat(args[2 * p])
  {
    var k := 2 * p;
    GoodPairsUnique(args, p);
    ParseOutcome(args);
    var b := args[..k + 1] + rest;
    assert b[k] == args[k];
    assert WellPaired(b, p) by {
      forall q: nat | q < p ensures PairOk(b, q) {
        assert PairOk(args, q);
        assert b[2 * q] == args[2 * q] && b[2 * q + 1] == args[2 * q + 1];
      }
    }
    GoodPairsUnique(b, p);
    ParseOutcome(b);
  }

  /** A flag followed by another flag ends reading, whatever follows the two. */
  lemma MissingValueIgnoresRest(args: seq<string>, p: nat, rest: seq<string>)
    requires WellPaired(args, p) && 2 * p + 1 < |args|
    requires IsFlag(args[2 * p]) && IsFlag(args[2 * p + 1])
    ensures Parse(args) == MissingValue(args[2 * p])
    ensures Parse(args[..2 * p + 2] + rest) == MissingValue(args[2 * p])
  {
    var k := 2 * p;
    GoodPairsUnique(args, p);
    ParseOutcome(args);
    var b := args[..k + 2] + rest;
    assert b[k] == args[k] && b[k + 1] == args[k + 1];
    assert WellPaired(b, p) by {
      forall q: nat | q < p ensures PairOk(b, q) {
        assert PairOk(args, q);
        assert b[2 * q] == args[2 * q] && b[2 * q + 1] == args[2 * q + 1];
      }
    }
    GoodPairsUnique(b, p);
    ParseOutcome(b);
  }

  /** A flag as the last token has no value. */
  lemma MissingValueAtEnd(args: seq<string>)
    requires |args| % 2 == 1 && WellPaired(args, (|args| - 1) / 2)
    requires IsFlag(args[|args| - 1])
    ensures Parse(args) == MissingValue(args[|args| - 1])
  {
    GoodPairsUnique(args, (|args| - 1) / 2);
    ParseOutcome(args);
  }

  // ---------------------------------------------------------------------------
  // Contents of the parameter map.

  /** `acc` updated with the pairs of `ps` from left to right, later pairs winning. */
  function Insert(acc: map<string, string>, ps: seq<(string, string)>): map<string, string>
    decreases |ps|
  {
    if |ps| == 0 then acc else Insert(acc[ps[0].0 := ps[0].1], ps[1..])
  }

  lemma {:induction false} InsertKeys(acc: map<string, string>, ps: seq<(string, string)>)
    ensures forall k :: k in Insert(acc, ps) <==> k in acc || exists q :: 0 <= q < |ps| && ps[q].0 == k
    decreases |ps|
  {
    if |ps| > 0 {
      InsertKeys(acc[ps[0].0 := ps[0].1], ps[1..]);
      forall q | 0 <= q < |ps| ensures q == 0 || ps[q] == ps[1..][q - 1] { }
    }
  }

  lemma {:induction false} InsertKeeps(acc: map<string, string>, ps: seq<(string, string)>, k: string)
    requires k in acc && forall q :: 0 <= q < |ps| ==> ps[q].0 != k
    ensures k in Insert(acc, ps) && Insert(acc, ps)[k] == acc[k]
    decreases |ps|
  {
    if |ps| > 0 {
      assert ps[0].0 != k;
      assert forall q :: 0 <= q < |ps[1..]| ==> ps[1..][q] == ps[q + 1];
      InsertKeeps(acc[ps[0].0 := ps[0].1], ps[1..], k);
    }
  }

  lemma {:induction false} InsertLastWins(acc: map<string, string>, ps: seq<(string, string)>, q: int)
    requires 0 <= q < |ps|
    requires forall q' :: q < q' < |ps| ==> ps[q'].0 != ps[q].0
    ensures ps[q].0 in Insert(acc, ps) && Insert(acc, ps)[ps[q].0] == ps[q].1
    decreases |ps|
  {
    var acc' := acc[ps[0].0 := ps[0].1];
    if q == 0 {
      assert forall q' :: 0 <= q' < |ps[1..]| ==> ps[1..][q'] == ps[q' + 1];
      InsertKeeps(acc', ps[1..], ps[0].0);
    } else {
      assert ps[1..][q - 1] == ps[q];
      InsertLastWins(acc', ps[1..], q - 1);
    }
  }

  lemma {:induction false} ParseFromIsInsert(args: seq<string>, p: nat, acc: map<string, string>)
    requires WellFormed(args) && p <= |args| / 2
    ensures ParseFrom(args, 2 * p, acc) == Ok(Insert(acc, Pairs(args)[p..]))
    decreases |args| - 2 * p
  {
    var ps := Pairs(args);
    if p < |ps| {
      assert PairOk(args, p);
      assert ps[p..][1..] == ps[p + 1..];
      ParseFromIsInsert(args, p + 1, acc[ps[p].0 := ps[p].1]);
    }
  }

  /** A successful read maps each flag's name to the token after it; a name given
      more than once keeps its last value, and no other name is present. */
  lemma ParseContents(args: seq<string>)
    requires WellFormed(args)
    ensures var ps := Pairs(args);
      && Parse(args).Ok?
      && var m := Parse(args).parameters;
      && (forall k :: k in m <==> exists q :: 0 <= q < |ps| && ps[q].0 == k)
      && (forall q :: 0 <= q < |ps| && (forall q' :: q < q' < |ps| ==> ps[q'].0 != ps[q].0) ==>
            m[ps[q].0] == ps[q].1)
  {
    var ps := Pairs(args);
    ParseFromIsInsert(args, 0, map[]);
    assert ps[0..] == ps;
    InsertKeys(map[], ps);
    forall q | 0 <= q < |ps| && (forall q' :: q < q' < |ps| ==> ps[q'].0 != ps[q].0)
      ensures Insert(map[], ps)[ps[q].0] == ps[q].1
    {
      InsertLastWins(map[], ps, q);
    }
  }
}

=== FILE: emailmover.dfy ===
/** `Main` as a whole: read the arguments, check the required names, fetch
    the first message, optionally move it, and report one response. The
    network is replaced by `Env`, the results its calls would have produced. */
module EmailMover {
  import opened Wrappers
  import Text
  import Arguments
  import Required
  import opened Mail

  /** The outside world of one run. `portIsInteger` is whether `int.Parse`
      accepts the port value; `fetch` is what `ConnectToImapServer` returned
      (`None` for its null); `reconnects` is whether `Connect`, `Authenticate` and
      `Disconnect` on the second connection complete, which `Main` does not guard;
      `folders` and `transfer` feed `MoveEmailToFolder`. */
  datatype Env = Env(
    portIsInteger: bool,
    fetch: Option<Fetched>,
    reconnects: bool,
    folders: Result<seq<string>>,
    transfer: Outcome)

  /** What one run does: whether it opened the second connection to move the
      message, and the response it printed — `None` when an exception escaped
      `Main` and nothing was printed. */
  datatype Report = Report(moveAttempted: bool, output: Option<Response>)

  /** A failure envelope with the empty email object. */
  function Refuse(message: string): (r: Response)
    ensures !r.success && r.email.None?
  {
    Response(false, message, None)
  }

  /** The `movetofolder` parameter, defaulting to the empty string. */
  function MoveTarget(parameters: map<string, string>): (t: string)
    ensures t != "" <==> "movetofolder" in parameters && parameters["movetofolder"] != ""
    ensures t != "" ==> t == parameters["movetofolder"]
  {
    if "movetofolder" in parameters then parameters["movetofolder"] else ""
  }

  /** The argument list reads without error and supplies every required name. */
  predicate Accepted(args: seq<string>) {
    Arguments.Parse(args).Ok? && |Required.Missing(Arguments.Parse(args).parameters)| == 0
  }

  /** One run of `Main`. */
  function Run(args: seq<string>, env: Env): (r: Report)
    ensures r.output.Some? && r.output.value.success ==> Accepted(args) && env.fetch.Some?
    ensures r.output.Some? && r.output.value.success ==> r.output.value.email == Some(env.fetch.value.email)
    ensures r.moveAttempted <==>
      Accepted(args) && env.portIsInteger && env.fetch.Some? &&
      MoveRequested(MoveTarget(Arguments.Parse(args).parameters), env.fetch.value.uid)
    ensures r.output.None? <==> Accepted(args) && (!env.portIsInteger || (r.moveAttempted && !env.reconnects))
    ensures !Accepted(args) ==> r.output.Some? && r.output.value.email.None?
  {
    match Arguments.Parse(args)
    case InvalidFormat(t) => Report(false, Some(Refuse(Arguments.ErrorMessage(Arguments.InvalidFormat(t)))))
    case MissingValue(f) => Report(false, Some(Refuse(Arguments.ErrorMessage(Arguments.MissingValue(f)))))
    case Ok(parameters) =>
      var missing := Required.Missing(parameters);
      if |missing| > 0 then Report(false, Some(Refuse(Required.MissingMessage(missing))))
      else if !env.portIsInteger then Report(false, None)
      else
        var target := MoveTarget(parameters);
        match env.fetch
        case None => Report(false, Some(Respond(None, target, MoveResult(false, ""))))
        case Some(f) =>
          if !MoveRequested(target, f.uid) then
            Report(false, Some(Respond(env.fetch, target, MoveResult(false, ""))))
          else if !env.reconnects then Report(true, None)
          else
            var move := MoveEmailToFolder(env.folders, target, env.transfer);
            Report(true, Some(Respond(env.fetch, target, move)))
  }

  /** A malformed argument list is reported without touching the network, with
      the offending token in the message. */
  lemma RunBadArguments(args: seq<string>, env: Env)
    requires !Arguments.Parse(args).Ok?
    ensures Run(args, env) ==
      Report(false, Some(Response(false, Arguments.ErrorMessage(Arguments.Parse(args)), None)))
  {
  }

  /** Missing required names are reported, all of them, without touching the network. */
  lemma RunMissingParameters(args: seq<string>, env: Env)
    requires Arguments.Parse(args).Ok?
    ensures var missing := Required.Missing(Arguments.Parse(args).parameters);
      |missing| > 0 ==> Run(args, env) == Report(false, Some(Response(false, Required.MissingMessage(missing), None)))
  {
  }

  /** With no arguments at all, all five required names are reported. */
  lemma RunNoArguments(env: Env)
    ensures Run([], env) == Report(false, Some(Response(false,
      Required.MissingPrefix + "server, username, password, port, readfolder", None)))
  {
    assert Arguments.Parse([]) == Arguments.Ok(map[]);
    Required.NothingSupplied();
  }

  /** A failed fetch gives the generic failure and an empty email, and no move. */
  lemma RunFetchFailed(args: seq<string>, env: Env)
    requires Accepted(args) && env.portIsInteger && env.fetch.None?
    ensures Run(args, env) == Report(false, Some(Response(false, FetchFailedMessage, None)))
  {
  }

  /** A fetched message with no move requested is reported as fetched. */
  lemma RunFetchOnly(args: seq<string>, env: Env)
    requires Accepted(args) && env.portIsInteger && env.fetch.Some?
    requires !MoveRequested(MoveTarget(Arguments.Parse(args).parameters), env.fetch.value.uid)
    ensures Run(args, env) == Report(false, Some(Response(true, FetchedMessage, Some(env.fetch.value.email))))
  {
  }

  /** After an attempted move the response carries the move's verdict and message,
      and still the fetched email, whether or not the move succeeded. */
  lemma RunMove(args: seq<string>, env: Env)
    requires Accepted(args) && env.portIsInteger && env.fetch.Some? && env.reconnects
    requires MoveRequested(MoveTarget(Arguments.Parse(args).parameters), env.fetch.value.uid)
    ensures var move := MoveEmailToFolder(env.folders, MoveTarget(Arguments.Parse(args).parameters), env.transfer);
      Run(args, env) == Report(true, Some(Response(move.success, move.message, Some(env.fetch.value.email))))
  {
  }

  /** A run that reports success was given an even number of tokens, alternating
      flags and values, and every required name was among the flags; if it
      moved the message, the target was one of the listed folders. */
  lemma RunSuccessNeeds(args: seq<string>, env: Env)
    requires Run(args, env).output.Some? && Run(args, env).output.value.success
    ensures Arguments.WellFormed(args)
    ensures forall i :: 0 <= i < |Required.RequiredKeys| ==>
      exists q :: 0 <= q < |args| / 2 && Arguments.Pairs(args)[q].0 == Required.RequiredKeys[i]
    ensures Run(args, env).moveAttempted ==>
      env.folders.Success? && MoveTarget(Arguments.Parse(args).parameters) in env.folders.value
  {
    Arguments.ParseOkIffWellFormed(args);
    Arguments.ParseContents(args);
    var m := Arguments.Parse(args).parameters;
    Required.MissingEmptyIff(m);
  }
}

=== FILE: mail.dfy ===
/** The data `Main` reports and the two decisions around the mail library:
    the folder check inside `MoveEmailToFolder`, and how the move result
    replaces the fetch envelope. The library calls themselves appear only
    as their results. */
module Mail {
  import opened Wrappers
  import Text

  /** One non-inline attachment of the fetched message; `fileName` is absent
      (printed as `null`) for a part that names no file. */
  datatype Attachment = Attachment(fileName: Option<string>, contentType: string, base64Content: string)

  /** The fetched message as reported. `subject` and `body` are absent (printed
      as `null`) for a message without a Subject header or a text part.
      `receivedDate` stands for the UTC timestamp; its calendar arithmetic is
      not modelled. */
  datatype EmailData = EmailData(
    subject: Option<string>,
    from: string,
    to: string,
    body: Option<string>,
    receivedDate: int,
    attachments: seq<Attachment>,
    uniqueId: string)

  /** A server-assigned message identifier, by its numeric id. */
  type UniqueId = nat

  /** The library's `UniqueId.Invalid`, the identifier no message carries. */
  const InvalidUid: UniqueId := 0

  /** A successful fetch: the message and the identifier it was fetched by. */
  datatype Fetched = Fetched(email: EmailData, uid: UniqueId)

  /** The `(Success, Message)` pair returned by `MoveEmailToFolder`. */
  datatype MoveResult = MoveResult(success: bool, message: string)

  /** The three fields of the printed JSON object; `None` is the empty object `{}`. */
  datatype Response = Response(success: bool, message: string, email: Option<EmailData>)

  const FetchFailedMessage: string := "Failed to retrieve email."
  const FetchedMessage: string := "Email fetched successfully."
  const MoveErrorPrefix: string := "Error moving email: "

  /** The `EmailData` constructor: an absent attachment list becomes an empty one. */
  function NewEmailData(subject: Option<string>, from: string, to: string, body: Option<string>,
                        receivedDate: int, attachments: Option<seq<Attachment>>,
                        uniqueId: string): (e: EmailData)
    ensures e.subject == subject && e.from == from && e.to == to && e.body == body
    ensures e.receivedDate == receivedDate && e.uniqueId == uniqueId
    ensures attachments.None? ==> e.attachments == []
    ensures attachments.Some? ==> e.attachments == attachments.value
  {
    EmailData(subject, from, to, body, receivedDate,
              match attachments case Some(a) => a case None => [],
              uniqueId)
  }

  /** The message for a target folder that is not among the available ones. */
  function FolderMissingMessage(target: string, available: seq<string>): string {
    "The folder '" + target + "' does not exist. Available folders: " + Text.Join(", ", available)
  }

  /** The message for a completed move. */
  function MovedMessage(target: string): string {
    "Email moved to " + target + " successfully."
  }

  /** `MoveEmailToFolder` over the results of its library calls: `folders` is the
      full names of the personal namespace's subfolders, or the message of the
      exception raised while listing them; `transfer` is how opening the two
      folders and moving the message ended. */
  function MoveEmailToFolder(folders: Result<seq<string>>, target: string, transfer: Outcome): (r: MoveResult)
    ensures r.success <==> folders.Success? && target in folders.value && transfer.Pass?
    ensures r.success ==> r.message == MovedMessage(target)
    ensures folders.Success? && target !in folders.value ==>
      r.message == FolderMissingMessage(target, folders.value)
    ensures folders.Failure? ==> r.message == MoveErrorPrefix + folders.error
    ensures folders.Success? && target in folders.value && transfer.Fail? ==>
      r.message == MoveErrorPrefix + transfer.error
  {
    match folders
    case Failure(e) => MoveResult(false, MoveErrorPrefix + e)
    case Success(available) =>
      if target !in available then MoveResult(false, FolderMissingMessage(target, available))
      else match transfer
        case Fail(e) => MoveResult(false, MoveErrorPrefix + e)
        case Pass => MoveResult(true, MovedMessage(target))
  }

  /** A refused move names the requested folder and every available folder. */
  lemma FolderMissingNamesAll(available: seq<string>, target: string, transfer: Outcome)
    requires target !in available
    ensures var r := MoveEmailToFolder(Success(available), target, transfer);
      && !r.success
      && Text.Contains(r.message, target)
      && forall i :: 0 <= i < |available| ==> Text.Contains(r.message, available[i])
  {
    var msg := FolderMissingMessage(target, available);
    var head := "The folder '" + target + "' does not exist. Available folders: ";
    assert msg == head + Text.Join(", ", available);
    assert Text.OccursAt(msg, target, 12);
    Text.JoinContainsItems(", ", available);
    forall i | 0 <= i < |available| ensures Text.Contains(msg, available[i]) {
      var j :| Text.OccursAt(Text.Join(", ", available), available[i], j);
      Text.OccursAtShift(head, Text.Join(", ", available), available[i], j);
    }
  }

  /** The folder check is exact: a name differing in any character, letter case
      included, is refused whatever the transfer would have done. */
  lemma MoveNeedsExactName(available: seq<string>, target: string, transfer: Outcome)
    requires forall i :: 0 <= i < |available| ==> available[i] != target
    ensures !MoveEmailToFolder(Success(available), target, transfer).success
  {
  }

  /** A move is attempted only for a non-empty target and a valid identifier. */
  predicate MoveRequested(moveToFolder: string, uid: UniqueId) {
    moveToFolder != "" && uid != InvalidUid
  }

  /** The response of `Main` once the fetch has ended: the fetch envelope, replaced
      by the move's success and message when a move was attempted. `move` is only
      consulted in that case. */
  function Respond(fetch: Option<Fetched>, moveToFolder: string, move: MoveResult): (r: Response)
    ensures r.email.Some? <==> fetch.Some?
    ensures fetch.Some? ==> r.email == Some(fetch.value.email)
    ensures fetch.None? ==> !r.success && r.message == FetchFailedMessage
    ensures fetch.Some? && !MoveRequested(moveToFolder, fetch.value.uid) ==>
      r.success && r.message == FetchedMessage
    ensures fetch.Some? && MoveRequested(moveToFolder, fetch.value.uid) ==>
      r.success == move.success && r.message == move.message
  {
    match fetch
    case None => Response(false, FetchFailedMessage, None)
    case Some(f) =>
      var response := Response(true, FetchedMessage, Some(f.email));
      if MoveRequested(moveToFolder, f.uid) then
        response.(success := move.success, message := move.message)
      else response
  }

  /** The move result is irrelevant unless a move is requested. */
  lemma RespondIgnoresUnrequestedMove(fetch: Option<Fetched>, moveToFolder: string, m1: MoveResult, m2: MoveResult)
    requires fetch.None? || !MoveRequested(moveToFolder, fetch.value.uid)
    ensures Respond(fetch, moveToFolder, m1) == Respond(fetch, moveToFolder, m2)
  {
  }
}

=== FILE: required.dfy ===
/** The required-parameter check of `Main`: after a successful read, the
    fixed list of required names is filtered down to those not supplied. */
module Required {
  import Text

  /** The parameters `Main` cannot run without, in the order it reports them. */
  const RequiredKeys: seq<string> := ["server", "username", "password", "port", "readfolder"]

  /** Prefix of the failure message that lists the missing names. */
  const MissingPrefix: string := "Missing parameters: "

  /** `sub` is `s` with some elements deleted, the rest kept in order. */
  predicate IsSubsequence(sub: seq<string>, s: seq<string>)
    decreases |s|
  {
    if |sub| == 0 then true
    else if |s| == 0 then false
    else (sub[0] == s[0] && IsSubsequence(sub[1..], s[1..])) || IsSubsequence(sub, s[1..])
  }

  /** No name occurs twice in `s`. */
  predicate Distinct(s: seq<string>) {
    forall i, j :: 0 <= i < j < |s| ==> s[i] != s[j]
  }

  /** The names of `keys` absent from `m`, in the order of `keys`. */
  function MissingFrom(keys: seq<string>, m: map<string, string>): (r: seq<string>)
    ensures forall k :: k in r <==> k in keys && k !in m
    ensures IsSubsequence(r, keys)
    decreases |keys|
  {
    if |keys| == 0 then []
    else if keys[0] in m then MissingFrom(keys[1..], m)
    else [keys[0]] + MissingFrom(keys[1..], m)
  }

  /** The required names not supplied, in the fixed order of `RequiredKeys`. */
  function Missing(m: map<string, string>): (r: seq<string>)
    ensures forall k :: k in r <==> k in RequiredKeys && k !in m
    ensures IsSubsequence(r, RequiredKeys)
  {
    MissingFrom(RequiredKeys, m)
  }

  /** The failure message for the missing names `missing`: the fixed prefix,
      then a text in which every missing name occurs. */
  function MissingMessage(missing: seq<string>): (msg: string)
    ensures Text.StartsWith(msg, MissingPrefix)
    ensures forall i :: 0 <= i < |missing| ==> Text.Contains(msg, missing[i])
  {
    var list := Text.Join(", ", missing);
    Text.JoinContainsItems(", ", missing);
    assert forall i :: 0 <= i < |missing| ==> Text.Contains(MissingPrefix + list, missing[i]) by {
      forall i | 0 <= i < |missing| ensures Text.Contains(MissingPrefix + list, missing[i]) {
        var j :| Text.OccursAt(list, missing[i], j);
        Text.OccursAtShift(MissingPrefix, list, missing[i], j);
      }
    }
    MissingPrefix + list
  }

  /** Every element of a subsequence occurs in the sequence it was taken from. */
  lemma {:induction false} SubsequenceElements(sub: seq<string>, s: seq<string>)
    requires IsSubsequence(sub, s)
    ensures forall k :: k in sub ==> k in s
    decreases |s|
  {
    if |sub| > 0 {
      if sub[0] == s[0] && IsSubsequence(sub[1..], s[1..]) {
        SubsequenceElements(sub[1..], s[1..]);
        forall k | k in sub ensures k in s {
          if k != sub[0] {
            assert k in sub[1..];
          }
        }
      } else {
        SubsequenceElements(sub, s[1..]);
      }
    }
  }

  /** A subsequence of a list without repetitions has none either. */
  lemma {:induction false} SubsequenceDistinct(sub: seq<string>, s: seq<string>)
    requires IsSubsequence(sub, s) && Distinct(s)
    ensures Distinct(sub)
    decreases |s|
  {
    if |sub| > 0 {
      assert Distinct(s[1..]) by {
        forall i, j | 0 <= i < j < |s[1..]| ensures s[1..][i] != s[1..][j] {
          assert s[1..][i] == s[i + 1] && s[1..][j] == s[j + 1];
        }
      }
      if sub[0] == s[0] && IsSubsequence(sub[1..], s[1..]) {
        SubsequenceDistinct(sub[1..], s[1..]);
        SubsequenceElements(sub[1..], s[1..]);
        forall j | 0 < j < |sub| ensures sub[0] != sub[j] {
          assert sub[j] == sub[1..][j - 1];
          assert sub[j] in s[1..];
          var t :| 0 <= t < |s[1..]| && s[1..][t] == sub[j];
          assert s[t + 1] == sub[j];
        }
      } else {
        SubsequenceDistinct(sub, s[1..]);
      }
    }
  }

  /** Over a list without repetitions, an order-preserving selection is fixed by
      which elements it selects: the missing list is the only possible one. */
  lemma {:induction false} SubsequenceUnique(a: seq<string>, b: seq<string>, s: seq<string>)
    requires Distinct(s) && IsSubsequence(a, s) && IsSubsequence(b, s)
    requires forall k :: k in a <==> k in b
    ensures a == b
    decreases |s|
  {
    if |s| == 0 {
    } else {
      var x := s[0];
      var t := s[1..];
      assert Distinct(t) by {
        forall i, j | 0 <= i < j < |t| ensures t[i] != t[j] {
          assert t[i] == s[i + 1] && t[j] == s[j + 1];
        }
      }
      assert x !in t by {
        forall i | 0 <= i < |t| ensures t[i] != x {
          assert t[i] == s[i + 1];
        }
      }
      if x in a {
        HeadSelected(a, s);
        HeadSelected(b, s);
        SubsequenceDistinct(a, s);
        SubsequenceDistinct(b, s);
        forall k ensures k in a[1..] <==> k in b[1..] {
          DropHead(a, k);
          DropHead(b, k);
        }
        SubsequenceUnique(a[1..], b[1..], t);
        assert a == [x] + a[1..] && b == [x] + b[1..];
      } else {
        NotHeadSkipped(a, s);
        NotHeadSkipped(b, s);
        SubsequenceUnique(a, b, t);
      }
    }
  }

  /** When the head of `s` is selected, it is the first element of the selection. */
  lemma HeadSelected(a: seq<string>, s: seq<string>)
    requires |s| > 0 && Distinct(s) && IsSubsequence(a, s) && s[0] in a
    ensures |a| > 0 && a[0] == s[0] && IsSubsequence(a[1..], s[1..])
  {
    assert s[0] !in s[1..] by {
      forall i | 0 <= i < |s[1..]| ensures s[1..][i] != s[0] {
        assert s[1..][i] == s[i + 1];
      }
    }
    if IsSubsequence(a, s[1..]) {
      SubsequenceElements(a, s[1..]);
    }
  }

  /** When the head of `s` is not selected, the selection comes from the rest of `s`. */
  lemma NotHeadSkipped(a: seq<string>, s: seq<string>)
    requires |s| > 0 && IsSubsequence(a, s) && s[0] !in a
    ensures IsSubsequence(a, s[1..])
  {
  }

  /** Dropping the head of a repetition-free list removes exactly that element. */
  lemma DropHead(a: seq<string>, k: string)
    requires |a| > 0 && Distinct(a)
    ensures k in a[1..] <==> k in a && k != a[0]
  {
  }

  /** The missing list is exactly the required names absent from the map, in
      their fixed order: any other order-preserving list of them is this one. */
  lemma MissingExactly(m: map<string, string>, other: seq<string>)
    requires IsSubsequence(other, RequiredKeys)
    requires forall k :: k in other <==> k in RequiredKeys && k !in m
    ensures other == Missing(m)
  {
    RequiredKeysDistinct();
    var missing := Missing(m);
    assert forall k :: k in other <==> k in missing;
    SubsequenceUnique(other, missing, RequiredKeys);
  }

  /** No required name is listed twice. */
  lemma RequiredKeysDistinct()
    ensures Distinct(RequiredKeys)
  {
  }

  /** The check passes exactly when every required name is supplied. */
  lemma MissingEmptyIff(m: map<string, string>)
    ensures |Missing(m)| == 0 <==> forall i :: 0 <= i < |RequiredKeys| ==> RequiredKeys[i] in m
  {
  }

  /** With nothing supplied, all five required names are reported, in order. */
  lemma NothingSupplied()
    ensures Missing(map[]) == RequiredKeys
    ensures MissingMessage(Missing(map[])) ==
      MissingPrefix + "server, username, password, port, readfolder"
  {
    MissingFromNothing(RequiredKeys);
    RequiredKeysJoined();
  }

  /** The rendering of the full required list. */
  lemma RequiredKeysJoined()
    ensures Text.Join(", ", RequiredKeys) == "server, username, password, port, readfolder"
  {
    Text.JoinCons(", ", "port", ["readfolder"]);
    Text.JoinCons(", ", "password", ["port", "readfolder"]);
    Text.JoinCons(", ", "username", ["password", "port", "readfolder"]);
    Text.JoinCons(", ", "server", ["username", "password", "port", "readfolder"]);
    assert RequiredKeys == ["server"] + ["username", "password", "port", "readfolder"];
  }

  /** Against an empty map every name is missing. */
  lemma {:induction false} MissingFromNothing(keys: seq<string>)
    ensures MissingFrom(keys, map[]) == keys
    decreases |keys|
  {
    if |keys| > 0 {
      MissingFromNothing(keys[1..]);
      assert [keys[0]] + keys[1..] == keys;
    }
  }

  /** No required name contains a comma. */
  lemma RequiredKeysCommaFree()
    ensures forall k :: k in RequiredKeys ==> ',' !in k
  {
  }

  /** The message names exactly the missing parameters: cutting its list at
      every ", " gives back the missing names in order, and no other list text
      cuts into them. */
  lemma MissingMessageLists(m: map<string, string>)
    ensures var msg := MissingMessage(Missing(m));
      && Text.StartsWith(msg, MissingPrefix)
      && (|Missing(m)| > 0 ==> Text.Split(msg[|MissingPrefix|..], ", ") == Missing(m))
      && (forall list :: Text.Split(list, ", ") == Missing(m) ==> list == msg[|MissingPrefix|..])
  {
    var missing := Missing(m);
    var msg := MissingMessage(missing);
    assert msg[..|MissingPrefix|] == MissingPrefix;
    assert msg[|MissingPrefix|..] == Text.Join(", ", missing);
    RequiredKeysCommaFree();
    assert Text.FreeOf(missing, ',') by {
      forall i | 0 <= i < |missing| ensures ',' !in missing[i] {
        assert missing[i] in missing;
      }
    }
    if |missing| > 0 {
      Text.SplitJoin(", ", missing);
    }
    forall list | Text.Split(list, ", ") == missing
      ensures list == Text.Join(", ", missing)
    {
      Text.JoinSplit(list, ", ");
    }
  }
}

=== FILE: text.dfy ===
/** String helpers with the meaning the .NET calls in the source give them:
    an ordinal prefix test, `string.Join`, and substring occurrence. */
module Text {

  /** `s` begins with `prefix`, compared character by character. */
  predicate StartsWith(s: string, prefix: string) {
    |prefix| <= |s| && s[..|prefix|] == prefix
  }

  /** `sub` occurs in `s` starting at index `i`. */
  predicate OccursAt(s: string, sub: string, i: int) {
    0 <= i && i + |sub| <= |s| && s[i..i + |sub|] == sub
  }

  /** `sub` occurs somewhere in `s`. */
  ghost predicate Contains(s: string, sub: string) {
    exists i :: OccursAt(s, sub, i)
  }

  /** The items separated by `sep`, as `string.Join(sep, items)` renders them. */
  function Join(sep: string, items: seq<string>): string
    decreases |items|
  {
    if |items| == 0 then ""
    else if |items| == 1 then items[0]
    else items[0] + sep + Join(sep, items[1..])
  }

  /** Cuts `s` at every occurrence of `sep`, scanning left to right; the inverse
      of `Join` on items that do not contain the separator's first character. */
  function Split(s: string, sep: string): (r: seq<string>)
    requires |sep| > 0
    ensures |r| >= 1
    decreases |s|
  {
    if |s| < |sep| then [s]
    else if s[..|sep|] == sep then [""] + Split(s[|sep|..], sep)
    else
      var rest := Split(s[1..], sep);
      [[s[0]] + rest[0]] + rest[1..]
  }

  /** No item of `items` contains character `c`. */
  predicate FreeOf(items: seq<string>, c: char) {
    forall i :: 0 <= i < |items| ==> c !in items[i]
  }

  /** An occurrence survives putting text in front of it, shifted by that text's length. */
  lemma OccursAtShift(pre: string, s: string, sub: string, i: int)
    requires OccursAt(s, sub, i)
    ensures OccursAt(pre + s, sub, |pre| + i)
  {
  }

  /** Every item of a join occurs in the joined text. */
  lemma {:induction false} JoinContainsItems(sep: string, items: seq<string>)
    ensures forall k :: 0 <= k < |items| ==> Contains(Join(sep, items), items[k])
    decreases |items|
  {
    if |items| == 0 {
    } else if |items| == 1 {
      assert OccursAt(Join(sep, items), items[0], 0);
    } else {
      var head := items[0] + sep;
      var tail := items[1..];
      assert Join(sep, items) == head + Join(sep, tail);
      JoinContainsItems(sep, tail);
      forall k | 0 <= k < |items|
        ensures Contains(Join(sep, items), items[k])
      {
        if k == 0 {
          assert OccursAt(Join(sep, items), items[0], 0);
        } else {
          assert items[k] == tail[k - 1];
          var j :| OccursAt(Join(sep, tail), tail[k - 1], j);
          OccursAtShift(head, Join(sep, tail), tail[k - 1], j);
        }
      }
    }
  }

  /** Joining one more item in front. */
  lemma JoinCons(sep: string, x: string, xs: seq<string>)
    requires |xs| > 0
    ensures Join(sep, [x] + xs) == x + sep + Join(sep, xs)
  {
  }

  /** Extending the first item by one character extends the joined text by it. */
  lemma JoinExtendFirst(sep: string, c: char, items: seq<string>)
    requires |items| > 0
    ensures Join(sep, [[c] + items[0]] + items[1..]) == [c] + Join(sep, items)
  {
    var items' := [[c] + items[0]] + items[1..];
    assert items'[1..] == items[1..];
    if |items| > 1 {
      assert Join(sep, items) == items[0] + sep + Join(sep, items[1..]);
    }
  }

  /** `Join` undoes `Split`: cutting a text and joining the pieces with the same
      separator gives the text back, so different texts cut into different pieces. */
  lemma {:induction false} JoinSplit(s: string, sep: string)
    requires |sep| > 0
    ensures Join(sep, Split(s, sep)) == s
    decreases |s|
  {
    if |s| < |sep| {
    } else if s[..|sep|] == sep {
      JoinSplit(s[|sep|..], sep);
      JoinCons(sep, "", Split(s[|sep|..], sep));
      assert s == sep + s[|sep|..];
    } else {
      JoinSplit(s[1..], sep);
      JoinExtendFirst(sep, s[0], Split(s[1..], sep));
      assert s == [s[0]] + s[1..];
    }
  }

  /** Text free of the separator's first character splits into itself. */
  lemma {:induction false} SplitWhole(s: string, sep: string)
    requires |sep| > 0 && sep[0] !in s
    ensures Split(s, sep) == [s]
    decreases |s|
  {
    if |s| < |sep| {
    } else {
      assert s[..|sep|][0] == s[0] != sep[0];
      SplitWhole(s[1..], sep);
      assert [s[0]] + s[1..] == s;
    }
  }

  /** Splitting stops at the first separator after text free of its first character. */
  lemma {:induction false} SplitFirst(x: string, sep: string, t: string)
    requires |sep| > 0 && sep[0] !in x
    ensures Split(x + sep + t, sep) == [x] + Split(t, sep)
    decreases |x|
  {
    var s := x + sep + t;
    if |x| == 0 {
      assert s == sep + t;
      assert s[..|sep|] == sep;
      assert s[|sep|..] == t;
    } else {
      assert s[..|sep|][0] == x[0] != sep[0];
      assert s[1..] == x[1..] + sep + t;
      SplitFirst(x[1..], sep, t);
      assert [x[0]] + x[1..] == x;
    }
  }

  /** `Split` undoes `Join` when no item contains the separator's first character. */
  lemma {:induction false} SplitJoin(sep: string, items: seq<string>)
    requires |sep| > 0 && |items| > 0 && FreeOf(items, sep[0])
    ensures Split(Join(sep, items), sep) == items
    decreases |items|
  {
    if |items| == 1 {
      SplitWhole(items[0], sep);
    } else {
      SplitFirst(items[0], sep, Join(sep, items[1..]));
      SplitJoin(sep, items[1..]);
      assert [items[0]] + items[1..] == items;
    }
  }
}

=== FILE: wrappers.dfy ===
/** Failure-carrying value types used across the model in place of the
    source's nulls and caught exceptions. */
module Wrappers {

  /** A value that may be absent (the source's `null`). */
  datatype Option<+T> = None | Some(value: T)

  /** A value, or the message of the exception that prevented computing it. */
  datatype Result<+R> = Success(value: R) | Failure(error: string)

  /** A side effect that either completed or raised an exception with a message. */
  datatype Outcome = Pass | Fail(error: string)
}
